=== FILE: README.md ===
# MR72 radar decoding, modelled in Dafny

The MR72 radar sends a 19-byte UART frame:

- the header "TH" (`0x54 0x48`);
- eight big-endian 16-bit distances in millimetres, where `0xFFFF` means "no reading";
- one trailing byte.

Six Python scripts decode this stream. This project models the decoding and telemetry-packing logic of each of them, with the serial ports, MAVLink links, threads and clocks removed:

- `mr72_mavlink.py` (the bridge):
  - the frame parser (`Parser`);
  - the reader thread's resynchronisation loop and its fold into the shared `latest_data` dictionary (`Resync`);
  - the sender thread's distance-sensor reports and 72-bin obstacle array (`Telemetry`);
  - both threads composed over a sequence of UART reads (`Bridge`).
- `mr72_mavlink_minimal.py`: fixed 19-byte reads, `parse_sector` with its 10000 mm fallback, the clamped `to_cm`, and eight reports with sensor ids 1..8 (`MinimalBridge`).
- `mr72_raw.py`:
  - `reflect_byte` and `crc8_mr72` (`Checksum`);
  - the checksum-gated resynchronisation loop (`RawDump`).
- `mr72.py`: header-less 19-byte chunking and the three-sector decoder (`Chunker`).
- `test_mr72_parser.py`:
  - the test frame builder and its own CRC-8, with init 0x00 and poly 0x31 (`TestFrames`, `Checksum`);
  - the invalid-frame expectations.
- `monitor_mr72.py`: the orientation table and the span-based obstacle array of `send_mavlink_data` (`Monitor`).

The data model:

- Bytes are `Frame.Byte`, the integers 0..255, and buffers are `seq<Byte>`.
- A decoded dictionary is a `map<SectorKey, Option<nat>>`. Python's `None` is `None`, so `dict.update` is map union.
- Each loop over a buffer is a recursive function. It returns the list of iterations it performed (frame emitted, or byte dropped) and the bytes it leaves behind. This lets conservation, alignment and chunking be stated as equalities.
- The two CRC-8 routines are one fold with parameters `CrcParams(init, poly, reflectInput)`. Neither is claimed to be the radar's own checksum. `crc8_mr72` is also written as the script's two nested loops (`Checksum.Crc8Mr72`), proved equal to the fold.

Two behaviours of the code are kept as written:

- A field of `0xFFFF` decodes to `None` (mr72_mavlink.py:127-135), and `update` stores that `None` over the previous value (mr72_mavlink.py:238). It does not keep the previous reading. The next tick therefore sends no report for that sector (`Bridge.NoReadingSuppressesReport`).
- The bridge checks no checksum at all (mr72_mavlink.py:125). `mr72_raw.py` compares its checksum of bytes 0..16 with byte 17 (mr72_raw.py:30-33), which is the low byte of the last distance, not the trailing byte. That comparison is kept as written.

## Model

| member | source | states |
|---|---|---|
| Frame.Word | mr72_mavlink.py:102-123 | a field's value fits in 16 bits; its high byte is the value div 256 and its low byte the value mod 256 |
| Frame.PackU16 | test_mr72_parser.py:27-34 | `struct.pack('>H', v)` yields two bytes that the parser's pair rule reads back as `v` |
| Frame.PackWord | test_mr72_parser.py:27-34 | packing a decoded pair gives the same two bytes back (the other half of the round trip) |
| Parser.Distance | mr72_mavlink.py:128-135 | a raw field is `None` exactly when it is `0xFFFF`, otherwise it is the raw value unchanged |
| Parser.ParseFrame | mr72_mavlink.py:90-136 | a dictionary comes back exactly when the frame has 19 bytes and starts with "TH"; it then has exactly the eight sector keys, and every present value is below `0xFFFF` |
| Parser.ParseFields | mr72_mavlink.py:101-135 | on a well-headed frame, the key of wire field `i` (sector2, sector3, 90, 135, 180, 225, 270, sector1 in order) holds the big-endian pair at bytes `2+2i`, `3+2i`, or `None` for `0xFFFF` |
| Parser.FieldKeysDistinct | mr72_mavlink.py:127-136 | the eight wire fields go to eight different keys, and those are exactly the keys of the result |
| Parser.TrailingByteIgnored | mr72_mavlink.py:125 | two frames that differ only in the trailing byte decode identically |
| Parser.BadHeaderRejected | mr72_mavlink.py:96-97 | a wrong first or second byte gives `None` whatever the rest of the input |
| Resync.Sync | mr72_mavlink.py:226-243 | every emitted frame is 19 bytes long and well-headed; fewer than 19 bytes remain; a buffer already shorter than 19 is left untouched |
| Resync.SyncConserves | mr72_mavlink.py:226-243 | emitted frames, dropped bytes and the leftover, concatenated in loop order, are exactly the input |
| Resync.SyncFirstStep | mr72_mavlink.py:228-243 | with at least 19 bytes, the loop cuts a frame off the front when the buffer starts with "TH" and otherwise drops exactly the first byte |
| Resync.SyncChunked | mr72_mavlink.py:221-226 | running the loop on `a + b` is running it on `a`, then on its leftover followed by `b`: how the bytes arrive does not change the frames found |
| Resync.SyncRecoversAfterGarbage | mr72_mavlink.py:226-243 | a valid frame preceded by header-free garbage is recovered intact after one drop per garbage byte, and the loop then carries on with what follows |
| Resync.Feed | mr72_mavlink.py:221-238 | after one read the buffer holds fewer than 19 bytes, and the dictionary gains the eight sector keys exactly when some frame was emitted |
| Resync.ApplyKeys | mr72_mavlink.py:234-238 | folding frames into the dictionary keeps all its keys and adds the parsed keys exactly when a frame went by |
| Resync.ApplyKeepsOtherKeys | mr72_mavlink.py:38-45 | `sector4`..`sector6` keep their initial values forever: no frame writes them |
| Resync.LastFrameWins | mr72_mavlink.py:234-238 | after a frame, each parsed key holds that frame's value, whatever came before |
| Resync.ApplySplit | mr72_mavlink.py:226-238 | folding two runs of iterations is folding the first, then the second from the result |
| Telemetry.ToCm | mr72_mavlink.py:149-156 | the reported centimetres are the millimetres divided by ten and rounded down |
| Telemetry.SensorReports | mr72_mavlink.py:260-282 | one report per present sector among 1..3, with id 1..3 and orientation id-1, in id order, carrying that sector's centimetres and the fixed min 10, max 10000, type 0 and covariance 0; an absent sector sends none |
| Telemetry.FillAround | mr72_mavlink.py:181-183 | the six-bin fill writes the sector value into its six bins and leaves every other bin unchanged |
| Telemetry.ObstacleArray | mr72_mavlink.py:174-195 | the 72 bins equal the reference layout: bins 0..5, 18..23 and 36..41 carry sector 1, 2 and 3 when present, and every other bin is 10000 |
| Telemetry.ObstacleMessageOf | mr72_mavlink.py:173-208 | the obstacle message carries sensor type 0, a 5-degree increment over 72 bins (a full circle), a 10..10000 cm range and frame 12, and its bins follow the reference layout |
| Telemetry.UncoveredBinsStayFar | mr72_mavlink.py:174-195 | a bin outside the three windows is always 10000 |
| Bridge.Start | mr72_mavlink.py:38-45 | the reader starts, as the constructor writes it, with an empty buffer and exactly the keys sector1..sector6, each holding the number `0xFFFF` |
| Bridge.CorrectedStart | mr72_mavlink.py:38-45 | the evidently intended start: an empty buffer and exactly the keys sector1..sector6, each with no reading |
| Bridge.Run | mr72_mavlink.py:217-243 | over any sequence of reads the dictionary keeps sectors 1..3 and never loses a key, and after at least one read fewer than 19 bytes are buffered |
| Bridge.RunIsFeedOfConcat | mr72_mavlink.py:221-243 | reading the bytes in several chunks gives the same buffer and dictionary as reading them all at once |
| Bridge.FeedOneFrame | mr72_mavlink.py:226-238 | a single well-headed frame read into an empty buffer leaves no bytes and updates the dictionary with its parse |
| Bridge.NoReadingSuppressesReport | mr72_mavlink.py:234-274 | a frame whose sector-2 field is `0xFFFF` overwrites sector 2 with `None`, and the next tick sends no id-2 report |
| Bridge.ScenarioReports | mr72_mavlink.py:226-282 | starting as the constructor does, a concrete frame with sector 1, 2, 3 at 500, 1000, 2000 mm makes the next tick report 50, 100 and 200 cm with ids 1, 2, 3 |
| Bridge.AllPresentReports | mr72_mavlink.py:260-282 | with sectors 1..3 all present the tick sends exactly their three reports, in sector order |
| Bridge.WrittenStartReportsPhantoms | mr72_mavlink.py:38-45 | from `Start`, the dictionary as the constructor writes it, the first tick reports all three sectors at 6553 cm and bin 0 holds 6553 |
| Bridge.StartReportsNothing | mr72_mavlink.py:38-45 | with every sector initially absent, the first tick sends no report and every bin is 10000 |
| Checksum.ReflectByte | mr72_raw.py:3-4 | binary digit `i` of the result is digit `7-i` of the input: the byte's eight bits in the opposite order |
| Checksum.ReflectInvolution | mr72_raw.py:3-4 | reflecting a byte's bits twice gives the byte back |
| Checksum.FromBitsOfBits | mr72_raw.py:4 | reading back the binary digits of a number gives the number |
| Checksum.BitsOfFromBits | mr72_raw.py:4 | writing out a digit string's value with as many digits gives the string back |
| Checksum.CrcFromAppend | mr72_raw.py:8-15 | the checksum is a left fold: checksumming `a + b` continues from the register left by `a` |
| Checksum.CrcSnoc | mr72_raw.py:8-15 | each input byte advances the register by exactly one byte step (xor, then eight shifts), for either variant |
| Checksum.TestCrc8 | test_mr72_parser.py:39-48 | the test's loop (init 0x00, poly 0x31, masked after each shift, no reflection) yields a byte, equal to the fold with those parameters |
| Checksum.VariantsDisagree | mr72_raw.py:7-16 | `crc8_mr72` of the empty buffer is 0xFF, while the test's checksum of it is 0x00 |
| Checksum.Crc8Mr72 | mr72_raw.py:6-16 | the nested-loop computation yields a byte, equal to the fold with init 0xFF, poly 0x9B and reflected input |
| Checksum.ShiftLoop | mr72_raw.py:11-15 | the eight shift passes keep the register a byte, and equal eight shift-and-xor steps |
| RawDump.RawSync | mr72_raw.py:27-37 | every window printed or discarded is 19 bytes long and well-headed; it is printed exactly when its checksum matches; fewer than 19 bytes remain |
| RawDump.RawSyncAlignsLikeBridge | mr72_raw.py:27-37 | apart from the verdict, the loop cuts the buffer exactly as the bridge's loop does: a rejected window is still consumed whole |
| RawDump.RawSyncConserves | mr72_raw.py:27-37 | windows, dropped bytes and the leftover, in order, are exactly the input |
| Chunker.ParseDistance | mr72.py:6-8 | a pair is `None` exactly when it reads `0xFFFF`, and otherwise its big-endian value |
| Chunker.Chunks | mr72.py:23-27 | the loop cuts `len div 19` slices, each 19 bytes, with no header check, and leaves fewer than 19 bytes |
| Chunker.ChunksConserve | mr72.py:23-27 | slices and leftover concatenated are exactly the buffer |
| Chunker.ChunkAt | mr72.py:23-27 | slice `i` is bytes `19i` to `19i+18` of the buffer |
| Chunker.ParseSectors | mr72.py:4-12 | the triple is bytes 16-17, 2-3 and 4-5 read big-endian, each `None` exactly for `0xFFFF`, by the same rule as the bridge's parser |
| Chunker.Decoded | mr72.py:23-25 | one decoded triple per 19 bytes of the buffer: line `i` decodes bytes `19i` to `19i+18` |
| Chunker.AgreesWithBridgeParser | mr72.py:4-12 | on a well-headed frame the triple is the bridge parser's sector1, sector2, sector3 |
| Chunker.OnlySectorBytesMatter | mr72.py:9-12 | bytes 0-1, 6-15 and 18 have no effect on the triple |
| MinimalBridge.ParseSector | mr72_mavlink_minimal.py:11-18 | a frame that is not 19 bytes long, or does not start with "TH", gives 0; otherwise the result is the big-endian pair at the two indices, with 10000 in place of `0xFFFF`; every result is below `0xFFFF` |
| MinimalBridge.ParseSectorAgrees | mr72_mavlink_minimal.py:16-18 | on a well-headed frame each field is the bridge parser's value, with 10000 in place of "no reading" |
| MinimalBridge.ToCm | mr72_mavlink_minimal.py:36-37 | the result lies in 0..65535, is at most 6553 for inputs up to 65535, is 0 for negative inputs, is the input div 10 for inputs in 0..655359, and is clamped to 65535 above that |
| MinimalBridge.SectorList | mr72_mavlink_minimal.py:40-44 | eight entries carrying every sensor id 1..8 exactly once |
| MinimalBridge.FrameReports | mr72_mavlink_minimal.py:46-66 | a short read sends nothing; a full read sends eight reports with ids 1..8 in order, at most 6553 cm each, min 0, max 1000, type 0, orientation 0 (all facing forward) and covariance 255 |
| MinimalBridge.MisalignedReadReportsZero | mr72_mavlink_minimal.py:14-15 | a full read that does not start with "TH" reports every sensor at 0 cm |
| MinimalBridge.HeadedReadReports | mr72_mavlink_minimal.py:54-66 | on a well-headed read, sensor `j+1` carries its sector's bridge-parsed value in centimetres, with 1000 cm for "no reading" |
| Monitor.Part | monitor_mr72.py:141-144 | one pass of the report loop sends exactly one report when its sector is present and none otherwise |
| Monitor.MonitorReports | monitor_mr72.py:135-144 | a report with orientation 0, 45 or -45 is sent exactly when sector 1, 2 or 3 is present, carrying that sector's centimetres; every report has a table orientation, and they come in strictly increasing table order, so none is repeated |
| Monitor.AngleBin | monitor_mr72.py:158-159 | an angle falls in the 5-degree bin it names |
| Monitor.FillBins | monitor_mr72.py:160-161 | the range fill writes bins `lo..hi-1` and leaves every other bin unchanged |
| Monitor.ObstacleBins | monitor_mr72.py:147-161 | the 72 bins equal the reference layout: bins 0..10, 11..21 and 22..32 carry sector 1, 2 and 3 when present, and every other bin is 65535 |
| Monitor.HighBinsStayEmpty | monitor_mr72.py:155-161 | bins 33 and above always stay 65535 |
| TestFrames.PackAll | test_mr72_parser.py:27-37 | the packed distances are two bytes each, and pair `i` reads back as value `i` |
| TestFrames.BuildFrame | test_mr72_parser.py:11-53 | the built frame is 19 bytes, starts with "TH", carries the packed distances at bytes 2..17, and ends with the test checksum of its first 18 bytes |
| TestFrames.BuildParseRoundTrip | test_mr72_parser.py:27-37 | building a frame and parsing it gives every value back under its key, with `0xFFFF` read as "no reading" |
| TestFrames.PresentValuesRoundTrip | test_mr72_parser.py:27-34 | every value below `0xFFFF` survives packing and parsing unchanged |
| TestFrames.BuildParseAll | test_mr72_parser.py:27-37 | all eight keys of a built frame hold their packed values at once |
| TestFrames.TestFrameParses | test_mr72_parser.py:86-95 | the test frame decodes to the values the test expects |
| TestFrames.InvalidFramesBehave | test_mr72_parser.py:108-131 | the wrong-header and 12-byte frames decode to `None`; the all-`0xFFFF` frame decodes with every field absent |

## Left out

- Serial and MAVLink I/O: opening the ports, waiting for heartbeats, and the `distance_sensor_send`/`obstacle_distance_send` calls. Only the integer arguments the scripts compute for those calls are modelled. The arguments that are timestamps (`time_boot_ms`, `time_usec`) are left out, and so are the floating-point arguments `increment_f=5.0` and `angle_offset=0.0` of `obstacle_distance_send`.
- Threads, `time.sleep`, the `running` flag and the `with threading.Lock()` blocks. The bridge is modelled as the reader's fold plus a sender tick that reads a snapshot. A lock created per call synchronises nothing, so interleavings add no behaviour beyond "the tick sees the dictionary after some number of reads".
- The `if not self.mavlink_connection` guards and the `try/except` handlers that log and carry on. On integer inputs the modelled code raises nothing.
- Empty UART reads (`if data:`). Feeding an empty chunk changes nothing in the model, because the buffer already holds fewer than 19 bytes.
- `parse_frame` and `crc8_calc`, which the test script calls, are not defined in the bridge. The frame tests use `parse_mr72_frame` instead. `test_crc_calculation` is not modelled, because it depends only on the missing `crc8_calc`. The test's `obstacle_*` key names are not the parser's keys either, so its printed "expected" table is read as the values under the parser's own keys.
- `MAVLinkSender` and `get_latest_data`, which the monitor imports, are not part of this model. The monitor's input is taken to be a dictionary like the bridge parser's, possibly missing keys. `display_radar_data` and the statistics thread only print.
- Telemetry.ToCm: `int(distance_mm / 10.0)` is modelled as integer division. The two agree for every 16-bit distance, and floating point is not modelled. The same holds for `int(data[sector] / 10)` and `int(angle / 5)` in the monitor.
- MinimalBridge.ParseSector: Python's negative indices are not modelled. The indices are naturals, and the script only passes 2..17.
- The meanings of MAVLink enums (orientation, sensor type, frame 12) are not modelled. They are carried as plain numbers in `DistanceReport` and `ObstacleMessage`.
- The raw dump script's `print(frame)` is modelled as the `Accept` verdict. The bridge's and minimal bridge's printing and logging are not modelled.
- The radar's real checksum algorithm is unknown, and the two routines in the scripts contradict each other, so no claim is made that either validates real frames.
- `webcam.py`, `usb-cam-flask.py`, `analyze_log.py`, `log_dwnld.py`, `mavlink_diagnostics.py`, `serial.py` and `mavlink_serial.py` are not part of this model. They cover video, HTTP, log analysis with floating point, file download and port probing.

## Findings

| source | as written | input that shows it | evidently intended | confidence | as-written member | corrected member |
|---|---|---|---|---|---|---|
| mr72_mavlink.py:38-45 | `latest_data` starts with every sector set to `INVALID_DISTANCE` (65535). The sender checks `is not None`, so the check passes. | No frame received yet (or none containing a header). The first sender tick sends sectors 1..3 at `int(65535 / 10.0)` = 6553 cm and fills their obstacle bins with 6553. | Sectors start with no reading (`None`), as the parser stores for `0xFFFF`. Nothing is reported and every bin stays at 10000 until a frame arrives. | medium, not executed | Bridge.WrittenStartReportsPhantoms | Bridge.StartReportsNothing |

=== FILE: bridge.dfy ===
/**
 The bridge end to end, with the two threads' shared dictionary as the only
 state: the reader folds every chunk read from the UART into it, and each
 sender tick turns a copy of it into MAVLink arguments.
 */
module Bridge {
  import opened Frame
  import opened Parser
  import opened Resync
  import opened Telemetry

  /** `latest_data` as the constructor writes it: every sector holds
      `INVALID_DISTANCE` (a number), not `None`. */
  const WrittenInitialSnapshot: Readings := map[
    Sector1 := Some(InvalidDistance), Sector2 := Some(InvalidDistance),
    Sector3 := Some(InvalidDistance), Sector4 := Some(InvalidDistance),
    Sector5 := Some(InvalidDistance), Sector6 := Some(InvalidDistance)]

  /** `latest_data` as evidently intended: every sector starts with no reading,
      the same value the parser gives a field of `0xFFFF`. */
  const InitialSnapshot: Readings := map[
    Sector1 := None, Sector2 := None, Sector3 := None,
    Sector4 := None, Sector5 := None, Sector6 := None]

  /** The six sectors the constructor puts in `latest_data`. */
  const InitialKeys: set<SectorKey> := {Sector1, Sector2, Sector3, Sector4, Sector5, Sector6}

  /** The reader thread before its first read, as the constructor sets it up:
      an empty buffer and every sector holding the number `INVALID_DISTANCE`. */
  function Start(): (r: Reader)
    ensures r.buffer == [] && HasChannels(r.snapshot)
    ensures r.snapshot.Keys == InitialKeys
    ensures forall k :: k in r.snapshot ==> r.snapshot[k] == Some(InvalidDistance)
  {
    Reader([], WrittenInitialSnapshot)
  }

  /** The reader thread before its first read, with the evidently intended
      dictionary: every sector without a reading. */
  function CorrectedStart(): (r: Reader)
    ensures r.buffer == [] && HasChannels(r.snapshot)
    ensures r.snapshot.Keys == InitialKeys
    ensures forall k :: k in r.snapshot ==> r.snapshot[k] == None
  {
    Reader([], InitialSnapshot)
  }

  /** The reader thread over a sequence of successful chunks. */
  function Run(reader: Reader, chunks: seq<seq<Byte>>): (r: Reader)
    requires HasChannels(reader.snapshot)
    ensures HasChannels(r.snapshot)
    ensures reader.snapshot.Keys <= r.snapshot.Keys
    ensures |chunks| > 0 ==> |r.buffer| < FrameLen
    decreases |chunks|
  {
    if |chunks| == 0 then reader else Run(Feed(reader, chunks[0]), chunks[1..])
  }

  /** How the bytes were split into chunks makes no difference: running the
      reader over several chunks equals feeding their concatenation once. */
  lemma {:induction false} RunIsFeedOfConcat(reader: Reader, chunks: seq<seq<Byte>>)
    requires HasChannels(reader.snapshot) && |reader.buffer| < FrameLen
    ensures Run(reader, chunks) == Feed(reader, Concat(chunks))
    decreases |chunks|
  {
    if |chunks| == 0 {
      assert reader.buffer + [] == reader.buffer;
    } else {
      var b := reader.buffer;
      var next := Feed(reader, chunks[0]);
      var more := Concat(chunks[1..]);
      RunIsFeedOfConcat(next, chunks[1..]);
      assert b + Concat(chunks) == (b + chunks[0]) + more;
      SyncChunked(b + chunks[0], more);
      ApplySplit(reader.snapshot, Sync(b + chunks[0]).steps, Sync(next.buffer + more).steps);
    }
  }

  /** A whole well-headed frame read into an empty buffer is consumed at once
      and its eight values overwrite the dictionary's. */
  lemma FeedOneFrame(snapshot: Readings, f: seq<Byte>)
    requires |f| == FrameLen && HasHeader(f)
    ensures Feed(Reader([], snapshot), f) == Reader([], snapshot + ParseFrame(f).value)
  {
    var none: seq<Byte> := [];
    assert none + f == f && f + none == f;
    FrameFirst(f, none);
    assert Sync(f) == SyncResult([Emit(f)], []);
    assert ApplyFrames(snapshot, [Emit(f)]) == ApplyFrames(snapshot + ParseFrame(f).value, []);
  }

  /** A frame whose sector-2 field is `0xFFFF` clears sector 2: whatever was
      known before, the next tick sends no report with sensor id 2. */
  lemma NoReadingSuppressesReport(snapshot: Readings, f: seq<Byte>)
    requires HasChannels(snapshot)
    requires |f| == FrameLen && HasHeader(f) && f[2] == 0xFF && f[3] == 0xFF
    ensures Feed(Reader([], snapshot), f).snapshot[Sector2] == None
    ensures !ReportsId(SensorReports(Feed(Reader([], snapshot), f).snapshot), 2)
  {
    FeedOneFrame(snapshot, f);
    ParseFields(f, 0);
    assert Channels[1] == Sector2;
  }

  /** The frame 54 48 | 03E8 07D0 05DC 09C4 0BB8 0DAC 0FA0 01F4 | 00: sector 2
      is 1000 mm, sector 3 2000 mm, the five angular sectors 1500..4000 mm and
      sector 1 500 mm. */
  const ScenarioFrame: seq<Byte> := [
    0x54, 0x48, 0x03, 0xE8, 0x07, 0xD0, 0x05, 0xDC, 0x09, 0xC4,
    0x0B, 0xB8, 0x0D, 0xAC, 0x0F, 0xA0, 0x01, 0xF4, 0x00]

  /** Starting as the constructor does and reading that frame, the next tick reports sector 1
      at 50 cm, sector 2 at 100 cm and sector 3 at 200 cm. */
  lemma ScenarioReports()
    ensures var data := Run(Start(), [ScenarioFrame]).snapshot;
      SensorReports(data) == [
        DistanceReport(10, 10000, 50, 0, 1, 0, 0),
        DistanceReport(10, 10000, 100, 0, 2, 1, 0),
        DistanceReport(10, 10000, 200, 0, 3, 2, 0)]
  {
    var f: seq<Byte> := ScenarioFrame;
    var chunks: seq<seq<Byte>> := [f];
    ScenarioParsed();
    FeedOneFrame(WrittenInitialSnapshot, f);
    assert chunks[1..] == [];
    assert Run(Start(), [f]) == Feed(Start(), f);
    var data := WrittenInitialSnapshot + ParseFrame(f).value;
    assert data[Sector1] == Some(500) && data[Sector2] == Some(1000) && data[Sector3] == Some(2000);
    AllPresentReports(data);
  }

  /** The scenario frame decodes with sector 1, 2 and 3 at 500, 1000 and 2000 mm. */
  lemma ScenarioParsed()
    ensures ParseFrame(ScenarioFrame).Some?
    ensures var p := ParseFrame(ScenarioFrame).value;
      p[Sector1] == Some(500) && p[Sector2] == Some(1000) && p[Sector3] == Some(2000)
  {
    var f := ScenarioFrame;
    assert f[..2] == Header;
    ParseFields(f, 7);
    ParseFields(f, 0);
    ParseFields(f, 1);
    assert Field(f, 7) == 500 && Field(f, 0) == 1000 && Field(f, 1) == 2000;
  }

  /** With sectors 1..3 all present, the tick sends exactly their three
      reports, in sector order. */
  lemma AllPresentReports(data: Readings)
    requires HasChannels(data)
    requires data[Sector1].Some? && data[Sector2].Some? && data[Sector3].Some?
    ensures SensorReports(data) == [
      SensorReport(data[Sector1].value, 0, 1),
      SensorReport(data[Sector2].value, 1, 2),
      SensorReport(data[Sector3].value, 2, 3)]
  {
  }

  /** As written, before any frame has arrived the sender already reports
      sectors 1..3 at 6553 cm and fills their obstacle bins with 6553, because
      the "invalid" marker is a number rather than `None`. */
  lemma WrittenStartReportsPhantoms()
    ensures SensorReports(Start().snapshot) == [
      DistanceReport(10, 10000, 6553, 0, 1, 0, 0),
      DistanceReport(10, 10000, 6553, 0, 2, 1, 0),
      DistanceReport(10, 10000, 6553, 0, 3, 2, 0)]
    ensures ObstacleArray(Start().snapshot)[0] == 6553
  {
    var data := Start().snapshot;
    assert data[Sector1] == Some(InvalidDistance);
    assert data[Sector2] == Some(InvalidDistance) && data[Sector3] == Some(InvalidDistance);
    AllPresentReports(data);
    assert ToCm(InvalidDistance) == 6553;
  }

  /** With the corrected initial dictionary nothing is reported before the
      first frame, and every obstacle bin is far. */
  lemma StartReportsNothing()
    ensures SensorReports(CorrectedStart().snapshot) == []
    ensures ObstacleArray(CorrectedStart().snapshot) == seq(Bins, _ => FarCm)
  {
  }
}

=== FILE: chunker.dfy ===
/**
 The plain reader script: no header check at all. The buffer is cut into
 consecutive 19-byte slices and three sectors are decoded from each.
 */
module Chunker {
  import opened Frame
  import Parser

  /** Nested `parse_distance(msb, lsb)`. */
  function ParseDistance(msb: Byte, lsb: Byte): (d: Option<nat>)
    ensures d == None <==> Word(msb, lsb) == InvalidDistance
    ensures d.Some? ==> d.value == Word(msb, lsb) && d.value < InvalidDistance
  {
    var val := Word(msb, lsb);
    if val == 0xFFFF then None else Some(val)
  }

  /** Sectors 1, 2 and 3 of one slice. */
  datatype Sectors = Sectors(sector1: Option<nat>, sector2: Option<nat>, sector3: Option<nat>)

  /** `parse_sectors(frame)`: bytes 16-17, 2-3 and 4-5. The caller's slices
      are 19 bytes; indexing needs only the first 18. Each pair is read by the
      same rule as the bridge's parser: big-endian, `0xFFFF` for no reading. */
  function ParseSectors(frame: seq<Byte>): (s: Sectors)
    requires |frame| >= 18
    ensures s.sector1 == Parser.Distance(Word(frame[16], frame[17]))
    ensures s.sector2 == Parser.Distance(Word(frame[2], frame[3]))
    ensures s.sector3 == Parser.Distance(Word(frame[4], frame[5]))
  {
    Sectors(ParseDistance(frame[16], frame[17]),
            ParseDistance(frame[2], frame[3]),
            ParseDistance(frame[4], frame[5]))
  }

  datatype ChunkResult = ChunkResult(frames: seq<seq<Byte>>, rest: seq<Byte>)

  /** The script's `while len(buffer) >= 19` loop. */
  function Chunks(buf: seq<Byte>): (r: ChunkResult)
    ensures |r.rest| < FrameLen
    ensures |r.frames| == |buf| / FrameLen
    ensures forall i :: 0 <= i < |r.frames| ==> |r.frames[i]| == FrameLen
    decreases |buf|
  {
    if |buf| < FrameLen then ChunkResult([], buf)
    else
      var tail := Chunks(buf[FrameLen..]);
      ChunkResult([buf[..FrameLen]] + tail.frames, tail.rest)
  }

  /** Slices and leftover, concatenated, are the buffer. */
  lemma {:induction false} ChunksConserve(buf: seq<Byte>)
    ensures Concat(Chunks(buf).frames) + Chunks(buf).rest == buf
    decreases |buf|
  {
    if |buf| >= FrameLen {
      ChunksConserve(buf[FrameLen..]);
      var r := Chunks(buf);
      assert r.frames[1..] == Chunks(buf[FrameLen..]).frames;
      assert buf == buf[..FrameLen] + buf[FrameLen..];
    }
  }

  /** Slice `i` is exactly bytes `19*i .. 19*i + 19` of the buffer. */
  lemma {:induction false} ChunkAt(buf: seq<Byte>, i: nat)
    requires i < |buf| / FrameLen
    ensures Chunks(buf).frames[i] == buf[FrameLen * i .. FrameLen * i + FrameLen]
    decreases |buf|
  {
    if i > 0 {
      var tail := buf[FrameLen..];
      ChunkAt(tail, i - 1);
      assert FrameLen * i == FrameLen + FrameLen * (i - 1);
      assert tail[FrameLen * (i - 1) .. FrameLen * (i - 1) + FrameLen]
        == buf[FrameLen * i .. FrameLen * i + FrameLen];
    }
  }

  /** The decoded lines the script prints, one per slice: line `i` decodes
      bytes `19*i .. 19*i + 19` of the buffer. */
  function Decoded(buf: seq<Byte>): (out: seq<Sectors>)
    ensures |out| == |buf| / FrameLen
    ensures forall i :: 0 <= i < |out| ==>
      out[i] == ParseSectors(buf[FrameLen * i .. FrameLen * i + FrameLen])
  {
    var frames := Chunks(buf).frames;
    assert forall i :: 0 <= i < |frames| ==>
      frames[i] == buf[FrameLen * i .. FrameLen * i + FrameLen] by {
      forall i | 0 <= i < |frames|
        ensures frames[i] == buf[FrameLen * i .. FrameLen * i + FrameLen]
      {
        ChunkAt(buf, i);
      }
    }
    seq(|frames|, i requires 0 <= i < |frames| => ParseSectors(frames[i]))
  }

  /** On a well-headed frame this decoder agrees with the bridge's parser on
      the three sectors it reads. */
  lemma AgreesWithBridgeParser(frame: seq<Byte>)
    requires |frame| == FrameLen && HasHeader(frame)
    ensures Parser.ParseFrame(frame).Some?
    ensures ParseSectors(frame) == Sectors(
      Parser.ParseFrame(frame).value[Parser.Sector1],
      Parser.ParseFrame(frame).value[Parser.Sector2],
      Parser.ParseFrame(frame).value[Parser.Sector3])
  {
    Parser.ParseFields(frame, 0);
    Parser.ParseFields(frame, 1);
    Parser.ParseFields(frame, 7);
  }

  /** Only bytes 2-5 and 16-17 matter: the header, bytes 6-15 and the
      trailing byte have no effect. */
  lemma OnlySectorBytesMatter(f: seq<Byte>, g: seq<Byte>)
    requires |f| == |g| == FrameLen
    requires f[2..6] == g[2..6] && f[16..18] == g[16..18]
    ensures ParseSectors(f) == ParseSectors(g)
  {
    assert f[2] == f[2..6][0] && f[3] == f[2..6][1] && f[4] == f[2..6][2] && f[5] == f[2..6][3];
    assert g[2] == g[2..6][0] && g[3] == g[2..6][1] && g[4] == g[2..6][2] && g[5] == g[2..6][3];
    assert f[16] == f[16..18][0] && f[17] == f[16..18][1];
    assert g[16] == g[16..18][0] && g[17] == g[16..18][1];
  }
}

=== FILE: crc.dfy ===
/**
 The two CRC-8 routines found in the scripts. They disagree (different
 initial value, polynomial and input reflection) and neither is known to be
 the radar's own algorithm; each is modelled exactly as written.

 - `crc8_mr72` of the raw dump script: every input byte bit-reflected, initial
   value 0xFF, polynomial 0x9B, most significant bit first.
 - the checksum of the parser test's frame builder: no reflection, initial
   value 0x00, polynomial 0x31, most significant bit first.
 */
module Checksum {
  import opened Frame

  function Pow2(n: nat): (p: nat)
    ensures p >= 1
  {
    if n == 0 then 1 else 2 * Pow2(n - 1)
  }

  /** `'{:0nb}'.format(b)` for `b < 2^n`: the `n` binary digits of `b`, most
      significant first (`true` for the digit 1). */
  function Bits(b: nat, n: nat): (s: seq<bool>)
    ensures |s| == n
  {
    if n == 0 then [] else Bits(b / 2, n - 1) + [b % 2 == 1]
  }

  /** `int(s, 2)`: the number a string of binary digits denotes. */
  function FromBits(s: seq<bool>): (v: nat)
    ensures v < Pow2(|s|)
  {
    if |s| == 0 then 0 else 2 * FromBits(s[..|s| - 1]) + (if s[|s| - 1] then 1 else 0)
  }

  /** `s[::-1]`. */
  function Reverse(s: seq<bool>): (r: seq<bool>)
    ensures |r| == |s|
    ensures forall i :: 0 <= i < |s| ==> r[i] == s[|s| - 1 - i]
  {
    if |s| == 0 then [] else Reverse(s[1..]) + [s[0]]
  }

  /** `reflect_byte`: the byte with its eight bits in the opposite order.
      Digit `i` of the result (most significant first) is digit `7 - i` of `b`. */
  function ReflectByte(b: Byte): (r: Byte)
    ensures forall i :: 0 <= i < 8 ==> Bits(r, 8)[i] == Bits(b, 8)[7 - i]
  {
    assert Pow2(8) == 256;
    ReflectDigits(b, 8)
  }

  /** The number whose `n` digits are `b`'s `n` digits reversed. */
  function ReflectDigits(b: nat, n: nat): (r: nat)
    ensures r < Pow2(n)
    ensures forall i :: 0 <= i < n ==> Bits(r, n)[i] == Bits(b, n)[n - 1 - i]
  {
    BitsOfFromBits(Reverse(Bits(b, n)));
    FromBits(Reverse(Bits(b, n)))
  }

  /** Reading back the `n` digits of a `b < 2^n` gives `b`. */
  lemma {:induction false} FromBitsOfBits(b: nat, n: nat)
    requires b < Pow2(n)
    ensures FromBits(Bits(b, n)) == b
  {
    if n > 0 {
      var s := Bits(b, n);
      assert s[..n - 1] == Bits(b / 2, n - 1);
      assert b / 2 < Pow2(n - 1);
      FromBitsOfBits(b / 2, n - 1);
      assert b == 2 * (b / 2) + b % 2;
    }
  }

  /** Rendering a digit string's value with as many digits gives the string back. */
  lemma {:induction false} BitsOfFromBits(s: seq<bool>)
    ensures Bits(FromBits(s), |s|) == s
    decreases |s|
  {
    if |s| > 0 {
      var init := s[..|s| - 1];
      BitsOfFromBits(init);
      var v := FromBits(s);
      var d := if s[|s| - 1] then 1 else 0;
      assert v == 2 * FromBits(init) + d;
      assert v / 2 == FromBits(init) && v % 2 == d;
      assert Bits(v, |s|) == Bits(v / 2, |s| - 1) + [v % 2 == 1];
      assert s == init + [s[|s| - 1]];
    }
  }

  lemma ReverseReverse(s: seq<bool>)
    ensures Reverse(Reverse(s)) == s
  {
  }

  /** Reflecting twice gives the byte back. */
  lemma ReflectInvolution(b: Byte)
    ensures ReflectByte(ReflectByte(b)) == b
  {
    var bits := Bits(b, 8);
    var rev := Reverse(bits);
    BitsOfFromBits(rev);
    ReverseReverse(bits);
    FromBitsOfBits(b, 8);
    assert Pow2(8) == 256;
  }

  /** A checksum variant: initial register value, polynomial, and whether
      each input byte is bit-reflected before it enters the register. */
  datatype CrcParams = CrcParams(init: Byte, poly: Byte, reflectInput: bool)

  /** `crc8_mr72`'s parameters. */
  const Mr72Params := CrcParams(0xFF, 0x9B, true)
  /** The parser test's parameters. */
  const TestParams := CrcParams(0x00, 0x31, false)

  /** `a ^ b` on two bytes. */
  function Xor(a: Byte, b: Byte): Byte
  {
    ((a as bv8) ^ (b as bv8)) as int
  }

  /** One pass of `for _ in range(8)`: shift left, xor the polynomial in when
      the bit shifted out was set, and keep the low eight bits. */
  function ShiftStep(crc: Byte, poly: Byte): Byte
  {
    var c := crc as bv16;
    var shifted := c << 1;
    ((if c & 0x80 != 0 then shifted ^ (poly as bv16) else shifted) & 0xFF) as int
  }

  /** `n` passes of the shift loop. */
  function Shifts(crc: Byte, poly: Byte, n: nat): Byte
    decreases n
  {
    if n == 0 then crc else Shifts(ShiftStep(crc, poly), poly, n - 1)
  }

  /** The register after one input byte. */
  function ByteStep(p: CrcParams, crc: Byte, b: Byte): Byte
  {
    var input := if p.reflectInput then ReflectByte(b) else b;
    Shifts(Xor(crc, input), p.poly, 8)
  }

  /** The register after the bytes of `buf`, starting from `crc`. */
  function CrcFrom(p: CrcParams, crc: Byte, buf: seq<Byte>): Byte
    decreases |buf|
  {
    if |buf| == 0 then crc else CrcFrom(p, ByteStep(p, crc, buf[0]), buf[1..])
  }

  /** The checksum of `buf` under a variant. */
  function Crc(p: CrcParams, buf: seq<Byte>): Byte
  {
    CrcFrom(p, p.init, buf)
  }

  /** The checksum is a left fold: checksumming `a + b` is checksumming `b`
      from the register left by `a`. */
  lemma {:induction false} CrcFromAppend(p: CrcParams, crc: Byte, a: seq<Byte>, b: seq<Byte>)
    ensures CrcFrom(p, crc, a + b) == CrcFrom(p, CrcFrom(p, crc, a), b)
    decreases |a|
  {
    if |a| == 0 {
      assert a + b == b;
    } else {
      assert (a + b)[0] == a[0];
      assert (a + b)[1..] == a[1..] + b;
      CrcFromAppend(p, ByteStep(p, crc, a[0]), a[1..], b);
    }
  }

  /** Each input byte advances the register by one step: the checksum of
      `buf + [b]` is one `ByteStep` from the checksum of `buf`, which is what
      both scripts' `for b in buf` loops do. */
  lemma CrcSnoc(p: CrcParams, buf: seq<Byte>, b: Byte)
    ensures Crc(p, buf + [b]) == ByteStep(p, Crc(p, buf), b)
  {
    CrcFromAppend(p, p.init, buf, [b]);
    assert [b][1..] == [];
  }

  /** The two variants already disagree on the empty buffer: 0xFF against 0x00. */
  lemma VariantsDisagree()
    ensures Crc(Mr72Params, []) == 0xFF
    ensures Crc(TestParams, []) == 0x00
  {
  }

  /** `crc8_mr72(buf)` as the script computes it, with its two nested loops. */
  method Crc8Mr72(buf: seq<Byte>) returns (crc: int)
    ensures 0 <= crc < 256
    ensures crc == Crc(Mr72Params, buf)
  {
    crc := 0xFF;
    var i := 0;
    while i < |buf|
      invariant 0 <= i <= |buf|
      invariant 0 <= crc < 256
      invariant CrcFrom(Mr72Params, crc, buf[i..]) == Crc(Mr72Params, buf)
    {
      var b := ReflectByte(buf[i]);
      crc := Xor(crc, b);
      crc := ShiftLoop(crc, 0x9B);
      assert buf[i..][1..] == buf[i + 1..];
      i := i + 1;
    }
  }

  /** The inner `for _ in range(8)` loop of `crc8_mr72`. */
  method ShiftLoop(start: Byte, poly: Byte) returns (crc: int)
    ensures 0 <= crc < 256
    ensures crc == Shifts(start, poly, 8)
  {
    crc := start;
    var k := 0;
    while k < 8
      invariant 0 <= k <= 8
      invariant 0 <= crc < 256
      invariant Shifts(crc, poly, 8 - k) == Shifts(start, poly, 8)
    {
      ghost var prev := crc;
      if (crc as bv16) & 0x80 != 0 {
        crc := ((((crc as bv16) << 1) ^ (poly as bv16)) & 0xFF) as int;
      } else {
        crc := (((crc as bv16) << 1) & 0xFF) as int;
      }
      assert crc == ShiftStep(prev, poly);
      k := k + 1;
    }
  }

  /** The parser test's checksum loop: no reflection, initial value 0x00,
      polynomial 0x31, the register masked to eight bits after every shift. */
  method TestCrc8(buf: seq<Byte>) returns (crc: int)
    ensures 0 <= crc < 256
    ensures crc == Crc(TestParams, buf)
  {
    crc := 0;
    var i := 0;
    while i < |buf|
      invariant 0 <= i <= |buf|
      invariant 0 <= crc < 256
      invariant CrcFrom(TestParams, crc, buf[i..]) == Crc(TestParams, buf)
    {
      crc := Xor(crc, buf[i]);
      crc := ShiftLoop(crc, 0x31);
      assert buf[i..][1..] == buf[i + 1..];
      i := i + 1;
    }
  }
}

=== FILE: frame.dfy ===
/**
 MR72 radar UART frame: the vocabulary every decoder variant shares.

 A frame is 19 bytes: the two header bytes `0x54 0x48` ("TH"), eight
 big-endian unsigned 16-bit distances in millimetres (`0xFFFF` meaning
 "no reading"), and one trailing byte.
 */
module Frame {

  /** A byte as indexing a Python `bytes` value yields it. */
  type Byte = x: int | 0 <= x < 256

  datatype Option<+T> = None | Some(value: T) {
    /** The value, or `default` when there is none. */
    function GetOr(default: T): T {
      match this
      case Some(v) => v
      case None => default
    }
  }

  const FrameLen: nat := 19
  const Header: seq<Byte> := [0x54, 0x48]
  /** Raw field value the radar sends when a sector has no echo. */
  const InvalidDistance: nat := 0xFFFF

  /** Bins of an `OBSTACLE_DISTANCE` distances array: 72 bins of 5 degrees. */
  const Bins: nat := 72

  /** `buffer[0:2] == HEADER`: the buffer starts with "TH". */
  predicate HasHeader(buf: seq<Byte>) {
    |buf| >= 2 && buf[..2] == Header
  }

  /** `(msb << 8) | lsb` for two bytes: the big-endian value of the pair. */
  function Word(msb: Byte, lsb: Byte): (w: nat)
    ensures w < 0x1_0000
    ensures w / 256 == msb && w % 256 == lsb
  {
    msb * 256 + lsb
  }

  /** `struct.pack('>H', v)`: the two big-endian bytes of an unsigned 16-bit value. */
  function PackU16(v: nat): (bs: seq<Byte>)
    requires v < 0x1_0000
    ensures |bs| == 2 && Word(bs[0], bs[1]) == v
  {
    [v / 256, v % 256]
  }

  /** Decoding a pair of bytes and packing it again gives back the pair. */
  lemma PackWord(msb: Byte, lsb: Byte)
    ensures PackU16(Word(msb, lsb)) == [msb, lsb]
  {
  }

  /** Concatenation of a sequence of byte strings, in order. */
  function Concat(parts: seq<seq<Byte>>): seq<Byte>
  {
    if |parts| == 0 then [] else parts[0] + Concat(parts[1..])
  }
}

=== FILE: minimal.dfy ===
/**
 The minimal bridge script: it reads 19 bytes at a time with no
 resynchronisation, decodes every sector with `parse_sector` (0 for a
 rejected frame, 10000 for a field of `0xFFFF`) and sends all eight sectors.
 */
module MinimalBridge {
  import opened Frame
  import Parser
  import Telemetry

  /** What `parse_sector` returns for a field of `0xFFFF`: 10 m in mm. */
  const FallbackMm: nat := 10000

  /** `parse_sector(frame, msb_index, lsb_index)`. Python's negative indices
      are not modelled, so the indices are naturals. */
  function ParseSector(frame: seq<Byte>, msb: nat, lsb: nat): (v: nat)
    requires |frame| == FrameLen ==> msb < FrameLen && lsb < FrameLen
    ensures |frame| != FrameLen ==> v == 0
    ensures |frame| == FrameLen && (frame[0] != 0x54 || frame[1] != 0x48) ==> v == 0
    ensures |frame| == FrameLen && HasHeader(frame) && Word(frame[msb], frame[lsb]) != InvalidDistance
      ==> v == Word(frame[msb], frame[lsb])
    ensures |frame| == FrameLen && HasHeader(frame) && Word(frame[msb], frame[lsb]) == InvalidDistance
      ==> v == FallbackMm
    ensures v < InvalidDistance
  {
    if |frame| != 19 then 0
    else if frame[0] != 0x54 || frame[1] != 0x48 then 0
    else
      assert frame[..2] == [frame[0], frame[1]];
      var val := Word(frame[msb], frame[lsb]);
      if val != 0xFFFF then val else FallbackMm
  }

  /** On a well-headed frame `parse_sector` agrees with the bridge's parser:
      it returns the same field, with 10000 where the parser says "no reading". */
  lemma ParseSectorAgrees(frame: seq<Byte>, i: nat)
    requires |frame| == FrameLen && HasHeader(frame) && i < 8
    ensures Parser.ParseFrame(frame).Some?
    ensures ParseSector(frame, 2 + 2 * i, 3 + 2 * i)
      == Parser.ParseFrame(frame).value[Parser.FieldKeys[i]].GetOr(FallbackMm)
  {
    Parser.ParseFields(frame, i);
    assert frame[0] == frame[..2][0] && frame[1] == frame[..2][1];
  }

  /** Nested `to_cm(val)`: floor division by ten, clamped to 0..65535. */
  function ToCm(val: int): (cm: nat)
    ensures cm <= 65535
    ensures val <= 65535 ==> cm <= 6553
    ensures val < 0 ==> cm == 0
    ensures 0 <= val < 655360 ==> cm * 10 <= val < cm * 10 + 10
    ensures val >= 655360 ==> cm == 65535
  {
    var tenths := val / 10;
    if tenths > 65535 then 65535 else if tenths < 0 then 0 else tenths
  }

  /** A distance paired with its sensor id. */
  datatype Entry = Entry(distance: int, id: nat)

  /** Some entry carries sensor id `id`. */
  predicate Carries(entries: seq<Entry>, id: nat)
  {
    exists i :: 0 <= i < |entries| && entries[i].id == id
  }

  /** The `sectors` list of `send_all_sectors`: every sensor id 1..8 exactly once. */
  function SectorList(s1: int, s2: int, s3: int, s90: int, s135: int, s180: int, s225: int, s270: int)
    : (entries: seq<Entry>)
    ensures |entries| == 8
    ensures forall i, j :: 0 <= i < j < |entries| ==> entries[i].id != entries[j].id
    ensures forall id :: 1 <= id <= 8 ==> Carries(entries, id)
    ensures forall i :: 0 <= i < 8 ==>
      entries[i].id == i + 1 && entries[i].distance == [s1, s2, s3, s90, s135, s180, s225, s270][i]
  {
    var entries := [
      Entry(s1, 1), Entry(s2, 2), Entry(s3, 3),
      Entry(s90, 4), Entry(s135, 5), Entry(s180, 6),
      Entry(s225, 7), Entry(s270, 8)];
    assert forall id | 1 <= id <= 8 :: Carries(entries, id) by {
      forall id | 1 <= id <= 8 ensures Carries(entries, id) {
        assert entries[id - 1].id == id;
      }
    }
    entries
  }

  /** `distance_sensor_send(time_boot_ms, 0, 1000, to_cm(distance), 0, sensor_id, 0, 255)`. */
  function SectorReport(e: Entry): Telemetry.DistanceReport
  {
    Telemetry.DistanceReport(0, 1000, ToCm(e.distance), 0, e.id, 0, 255)
  }

  /** Eight entries carrying ids 1..8 with distances below `0xFFFF` give
      eight reports with those ids, each at most 6553 cm. */
  lemma EntriesReport(entries: seq<Entry>)
    requires |entries| == 8
    requires forall i :: 0 <= i < 8 ==> entries[i].id == i + 1 && entries[i].distance < InvalidDistance
    ensures forall i :: 0 <= i < 8 ==>
      SectorReport(entries[i]).id == i + 1 && SectorReport(entries[i]).currentCm <= 6553
  {
    forall i | 0 <= i < 8
      ensures SectorReport(entries[i]).id == i + 1 && SectorReport(entries[i]).currentCm <= 6553
    {
      assert ToCm(entries[i].distance) <= 6553;
    }
  }

  /** The eight reports the main loop sends for one successful 19-byte read;
      a short read sends nothing. */
  function FrameReports(frame: seq<Byte>): (reports: seq<Telemetry.DistanceReport>)
    ensures |frame| != FrameLen ==> reports == []
    ensures |frame| == FrameLen ==> |reports| == 8
    ensures forall i :: 0 <= i < |reports| ==>
      reports[i].id == i + 1 && reports[i].currentCm <= 6553
      && reports[i].minCm == 0 && reports[i].maxCm == 1000 && reports[i].covariance == 255
      && reports[i].sensorType == 0 && reports[i].orientation == 0
  {
    if |frame| != 19 then []
    else
      var sector2 := ParseSector(frame, 2, 3);
      var sector3 := ParseSector(frame, 4, 5);
      var sector90 := ParseSector(frame, 6, 7);
      var sector135 := ParseSector(frame, 8, 9);
      var sector180 := ParseSector(frame, 10, 11);
      var sector225 := ParseSector(frame, 12, 13);
      var sector270 := ParseSector(frame, 14, 15);
      var sector1 := ParseSector(frame, 16, 17);
      var entries := SectorList(sector1, sector2, sector3, sector90, sector135, sector180, sector225, sector270);
      EntriesReport(entries);
      seq(8, i requires 0 <= i < 8 => SectorReport(entries[i]))
  }

  /** A 19-byte read that does not start with "TH" reports every one of the
      eight sensors at 0 cm. */
  lemma MisalignedReadReportsZero(frame: seq<Byte>)
    requires |frame| == FrameLen && !HasHeader(frame)
    ensures forall i :: 0 <= i < |FrameReports(frame)| ==> FrameReports(frame)[i].currentCm == 0
  {
  }

  /** The sector each sensor id stands for: sensor `j + 1` is `SensorKeys[j]`. */
  const SensorKeys: seq<Parser.SectorKey> := [
    Parser.Sector1, Parser.Sector2, Parser.Sector3, Parser.Sector90,
    Parser.Sector135, Parser.Sector180, Parser.Sector225, Parser.Sector270]

  /** On a well-headed read, sensor `j + 1` carries its sector's value as the
      bridge's parser decodes it, converted to cm, with 1000 cm standing in
      for "no reading". */
  lemma HeadedReadReports(frame: seq<Byte>, j: nat)
    requires |frame| == FrameLen && HasHeader(frame) && j < 8
    ensures Parser.ParseFrame(frame).Some?
    ensures FrameReports(frame)[j].currentCm
      == ToCm(Parser.ParseFrame(frame).value[SensorKeys[j]].GetOr(FallbackMm))
  {
    var field := if j == 0 then 7 else j - 1;
    ParseSectorAgrees(frame, field);
    assert SensorKeys[j] == Parser.FieldKeys[field];
  }
}

=== FILE: monitor.dfy ===
/**
 The monitor script's `send_mavlink_data`: distance-sensor reports for
 sectors 1..3 with its own orientation table, and a 72-bin obstacle array
 whose bins are derived from each sector's angular span in 5-degree steps.
 Its input is the bridge parser's dictionary, which may lack keys.
 */
module Monitor {
  import opened Frame
  import opened Parser

  /** Arguments of `send_distance_sensor(distance_cm, 0, orientation)`. */
  datatype MonitorReport = MonitorReport(distanceCm: nat, secondArg: nat, orientation: int)

  /** `sector in data and data[sector] is not None`. */
  predicate Present(data: Readings, k: SectorKey)
  {
    k in data && data[k].Some?
  }

  /** `sector_orientations`, in insertion order. */
  const Orientations: seq<(SectorKey, int)> := [(Sector1, 0), (Sector2, 45), (Sector3, -45)]

  /** Some report was sent with orientation `o`. */
  predicate SentWith(reports: seq<MonitorReport>, o: int)
  {
    exists i :: 0 <= i < |reports| && reports[i].orientation == o
  }

  /** What one pass of the report loop sends for table entry `c`: one
      report when its sector is present, nothing otherwise. */
  function Part(data: Readings, c: nat): (p: seq<MonitorReport>)
    requires c < |Orientations|
    ensures |p| <= 1
    ensures |p| == 1 <==> Present(data, Orientations[c].0)
  {
    var (k, o) := Orientations[c];
    if Present(data, k) then [MonitorReport(data[k].value / 10, 0, o)] else []
  }

  /** The report loop over `sector_orientations`, from entry `c` onwards. */
  function ReportsFrom(data: Readings, c: nat): (reports: seq<MonitorReport>)
    requires c <= |Orientations|
    ensures |reports| <= |Orientations| - c
    decreases |Orientations| - c
  {
    if c == |Orientations| then [] else Part(data, c) + ReportsFrom(data, c + 1)
  }

  /** Position of an orientation in the table; 3 for one not in it. */
  function TableIndex(o: int): (c: nat)
    ensures c <= 3
    ensures c < 3 ==> Orientations[c].1 == o
  {
    if o == 0 then 0 else if o == 45 then 1 else if o == -45 then 2 else 3
  }

  /** The individual reports: exactly one per present sector among 1..3, at
      the table's orientation and the value in whole centimetres, in table
      order and nothing else. */
  function MonitorReports(data: Readings): (reports: seq<MonitorReport>)
    ensures |reports| <= 3
    ensures forall i :: 0 <= i < |reports| ==> TableIndex(reports[i].orientation) < 3
    ensures forall i, j :: 0 <= i < j < |reports| ==>
      TableIndex(reports[i].orientation) < TableIndex(reports[j].orientation)
    ensures forall c :: 0 <= c < 3 ==>
      (Present(data, Orientations[c].0) <==> SentWith(reports, Orientations[c].1))
    ensures forall c, i :: 0 <= c < 3 && 0 <= i < |reports| && reports[i].orientation == Orientations[c].1 ==>
      Present(data, Orientations[c].0) && reports[i] == MonitorReport(data[Orientations[c].0].value / 10, 0, Orientations[c].1)
  {
    var r := ReportsFrom(data, 0);
    assert r == Part(data, 0) + Part(data, 1) + Part(data, 2) by {
      assert ReportsFrom(data, 3) == [];
    }
    PartsLayout(data);
    PartsSent(data);
    PartsContent(data);
    r
  }

  /** Which table entry report `k` of the loop comes from. */
  function Slot(data: Readings, k: nat): nat
  {
    if k < |Part(data, 0)| then 0
    else if k < |Part(data, 0)| + |Part(data, 1)| then 1
    else 2
  }

  /** Report `k` is the one report of table entry `Slot(k)`; slots strictly
      increase, so entries appear in table order and at most once each. */
  lemma PartsLayout(data: Readings)
    ensures var r := Part(data, 0) + Part(data, 1) + Part(data, 2);
      forall k :: 0 <= k < |r| ==>
        |Part(data, Slot(data, k))| == 1 && r[k] == Part(data, Slot(data, k))[0]
        && TableIndex(r[k].orientation) == Slot(data, k)
    ensures var r := Part(data, 0) + Part(data, 1) + Part(data, 2);
      forall i, j :: 0 <= i < j < |r| ==> Slot(data, i) < Slot(data, j)
  {
    var p1, p2, p3 := Part(data, 0), Part(data, 1), Part(data, 2);
    var r := p1 + p2 + p3;
    assert TableIndex(0) == 0 && TableIndex(45) == 1 && TableIndex(-45) == 2;
    forall k | 0 <= k < |r|
      ensures |Part(data, Slot(data, k))| == 1 && r[k] == Part(data, Slot(data, k))[0]
        && TableIndex(r[k].orientation) == Slot(data, k)
    {
      if k < |p1| {
        assert r[k] == p1[0];
      } else if k < |p1| + |p2| {
        assert r[k] == p2[0];
      } else {
        assert r[k] == p3[0];
      }
    }
  }

  /** A report at entry `c`'s orientation is entry `c`'s report, so its
      sector is present and the report carries that sector's value. */
  lemma PartsContent(data: Readings)
    ensures var r := Part(data, 0) + Part(data, 1) + Part(data, 2);
      forall c, i :: 0 <= c < 3 && 0 <= i < |r| && r[i].orientation == Orientations[c].1 ==>
        Present(data, Orientations[c].0)
        && r[i] == MonitorReport(data[Orientations[c].0].value / 10, 0, Orientations[c].1)
    ensures var r := Part(data, 0) + Part(data, 1) + Part(data, 2);
      forall c :: 0 <= c < 3 && SentWith(r, Orientations[c].1) ==> Present(data, Orientations[c].0)
  {
    var r := Part(data, 0) + Part(data, 1) + Part(data, 2);
    PartsLayout(data);
    forall c, i | 0 <= c < 3 && 0 <= i < |r| && r[i].orientation == Orientations[c].1
      ensures Present(data, Orientations[c].0)
        && r[i] == MonitorReport(data[Orientations[c].0].value / 10, 0, Orientations[c].1)
    {
      assert TableIndex(Orientations[c].1) == c;
      assert Slot(data, i) == c;
    }
  }

  /** A present entry's report is in the list, at the position after the
      earlier entries' reports. */
  lemma PartsSent(data: Readings)
    ensures var r := Part(data, 0) + Part(data, 1) + Part(data, 2);
      forall c :: 0 <= c < 3 && Present(data, Orientations[c].0) ==> SentWith(r, Orientations[c].1)
  {
    var p1, p2, p3 := Part(data, 0), Part(data, 1), Part(data, 2);
    var r := p1 + p2 + p3;
    forall c | 0 <= c < 3 && Present(data, Orientations[c].0)
      ensures SentWith(r, Orientations[c].1)
    {
      var at := if c == 0 then 0 else if c == 1 then |p1| else |p1| + |p2|;
      assert r[at] == Part(data, c)[0];
    }
  }

  /** Value of a bin no sector writes. */
  const EmptyBin: nat := 65535

  /** `sector_mappings`: each sector's start and end angle in degrees. */
  const Spans: seq<(SectorKey, nat, nat)> := [(Sector1, 0, 56), (Sector2, 56, 112), (Sector3, 112, 168)]

  /** `int(angle / 5)`: the 5-degree bin an angle falls in. */
  function AngleBin(angle: nat): (bin: nat)
    ensures 5 * bin <= angle < 5 * bin + 5
  {
    angle / 5
  }

  /** `for i in range(lo, hi): obstacle_distances[i] = cm`. */
  function FillBins(arr: seq<nat>, lo: nat, hi: nat, cm: nat): (r: seq<nat>)
    requires lo <= hi <= |arr|
    ensures |r| == |arr|
    ensures forall j :: 0 <= j < |arr| ==> r[j] == if lo <= j < hi then cm else arr[j]
    decreases hi - lo
  {
    if lo == hi then arr else FillBins(arr[lo := cm], lo + 1, hi, cm)
  }

  /** The array loop for the span entries from `c` onwards. */
  function FillSpans(data: Readings, arr: seq<nat>, c: nat): (r: seq<nat>)
    requires |arr| == Bins && c <= |Spans|
    ensures |r| == Bins
    decreases |Spans| - c
  {
    if c == |Spans| then arr
    else
      var (k, startAngle, endAngle) := Spans[c];
      var next :=
        if Present(data, k) then
          var cm := data[k].value / 10;
          var startIdx := AngleBin(startAngle);
          var endIdx := AngleBin(endAngle);
          FillBins(arr, startIdx, if endIdx < Bins then endIdx else Bins, cm)
        else arr;
      FillSpans(data, next, c + 1)
  }

  /** Reference meaning of bin `j`: sector 1 covers bins 0..10, sector 2
      bins 11..21, sector 3 bins 22..32, each when present. */
  function ExpectedBin(data: Readings, j: nat): nat
  {
    if j < 11 && Present(data, Sector1) then data[Sector1].value / 10
    else if 11 <= j < 22 && Present(data, Sector2) then data[Sector2].value / 10
    else if 22 <= j < 33 && Present(data, Sector3) then data[Sector3].value / 10
    else EmptyBin
  }

  /** The `obstacle_distances` argument. */
  function ObstacleBins(data: Readings): (arr: seq<nat>)
    ensures |arr| == Bins
    ensures forall j :: 0 <= j < Bins ==> arr[j] == ExpectedBin(data, j)
  {
    var empty := seq(Bins, _ => EmptyBin);
    assert AngleBin(0) == 0 && AngleBin(56) == 11 && AngleBin(112) == 22 && AngleBin(168) == 33;
    FillSpans(data, empty, 0)
  }

  /** Bins 33 and above are never written. */
  lemma HighBinsStayEmpty(data: Readings, j: nat)
    requires 33 <= j < Bins
    ensures ObstacleBins(data)[j] == EmptyBin
  {
  }
}

=== FILE: parser.dfy ===
/**
 `MR72Radar.parse_mr72_frame` of the bridge script: a 19-byte frame with
 the "TH" header becomes a dictionary of eight sector distances.
 */
module Parser {
  import opened Frame

  /** Dictionary keys of the bridge's sector data. `Sector4`..`Sector6` only
      occur in the bridge's initial snapshot; the parser never produces them. */
  datatype SectorKey =
    | Sector1 | Sector2 | Sector3 | Sector4 | Sector5 | Sector6
    | Sector90 | Sector135 | Sector180 | Sector225 | Sector270

  /** A decoded dictionary: key to distance in mm, `None` for "no reading". */
  type Readings = map<SectorKey, Option<nat>>

  /** The keys of the eight wire fields, in wire order: field `i` is carried
      by bytes `2 + 2*i` (high) and `3 + 2*i` (low). */
  const FieldKeys: seq<SectorKey> :=
    [Sector2, Sector3, Sector90, Sector135, Sector180, Sector225, Sector270, Sector1]

  /** The keys a successful parse produces. */
  const ParsedKeys: set<SectorKey> :=
    {Sector1, Sector2, Sector3, Sector90, Sector135, Sector180, Sector225, Sector270}

  /** Raw value of wire field `i`. */
  function Field(frame: seq<Byte>, i: nat): nat
    requires |frame| == FrameLen && i < 8
  {
    Word(frame[2 + 2 * i], frame[3 + 2 * i])
  }

  /** `v if v != INVALID_DISTANCE else None`. */
  function Distance(raw: nat): (d: Option<nat>)
    ensures d == None <==> raw == InvalidDistance
    ensures d.Some? ==> d.value == raw
  {
    if raw != InvalidDistance then Some(raw) else None
  }

  /** `parse_mr72_frame`: length first, then header, then the eight fields.
      The trailing byte (index 18) is not read. */
  function ParseFrame(frame: seq<Byte>): (r: Option<Readings>)
    ensures r.Some? <==> |frame| == FrameLen && HasHeader(frame)
    ensures r.Some? ==> r.value.Keys == ParsedKeys
    ensures r.Some? ==> forall k :: k in r.value && r.value[k].Some? ==> r.value[k].value < InvalidDistance
  {
    if |frame| != FrameLen then None
    else if !HasHeader(frame) then None
    else
      var sector2 := Word(frame[2], frame[3]);
      var sector3 := Word(frame[4], frame[5]);
      var sector90 := Word(frame[6], frame[7]);
      var sector135 := Word(frame[8], frame[9]);
      var sector180 := Word(frame[10], frame[11]);
      var sector225 := Word(frame[12], frame[13]);
      var sector270 := Word(frame[14], frame[15]);
      var sector1 := Word(frame[16], frame[17]);
      Some(map[
        Sector1 := Distance(sector1),
        Sector2 := Distance(sector2),
        Sector3 := Distance(sector3),
        Sector90 := Distance(sector90),
        Sector135 := Distance(sector135),
        Sector180 := Distance(sector180),
        Sector225 := Distance(sector225),
        Sector270 := Distance(sector270)])
  }

  /** For a well-headed frame, the value under the key of wire field `i` is
      exactly the big-endian pair at bytes `2 + 2*i`, `3 + 2*i` (or `None`
      when that pair is `0xFFFF`). */
  lemma ParseFields(frame: seq<Byte>, i: nat)
    requires |frame| == FrameLen && HasHeader(frame) && i < 8
    ensures ParseFrame(frame).Some?
    ensures FieldKeys[i] in ParseFrame(frame).value
    ensures ParseFrame(frame).value[FieldKeys[i]] == Distance(Field(frame, i))
  {
    var r := ParseFrame(frame).value;
    if i == 0 {
      assert FieldKeys[i] == Sector2 && Field(frame, i) == Word(frame[2], frame[3]);
      assert r[Sector2] == Distance(Word(frame[2], frame[3]));
    }
    else if i == 1 {
      assert FieldKeys[i] == Sector3 && Field(frame, i) == Word(frame[4], frame[5]);
      assert r[Sector3] == Distance(Word(frame[4], frame[5]));
    }
    else if i == 2 {
      assert FieldKeys[i] == Sector90 && Field(frame, i) == Word(frame[6], frame[7]);
      assert r[Sector90] == Distance(Word(frame[6], frame[7]));
    }
    else if i == 3 {
      assert FieldKeys[i] == Sector135 && Field(frame, i) == Word(frame[8], frame[9]);
      assert r[Sector135] == Distance(Word(frame[8], frame[9]));
    }
    else if i == 4 {
      assert FieldKeys[i] == Sector180 && Field(frame, i) == Word(frame[10], frame[11]);
      assert r[Sector180] == Distance(Word(frame[10], frame[11]));
    }
    else if i == 5 {
      assert FieldKeys[i] == Sector225 && Field(frame, i) == Word(frame[12], frame[13]);
      assert r[Sector225] == Distance(Word(frame[12], frame[13]));
    }
    else if i == 6 {
      assert FieldKeys[i] == Sector270 && Field(frame, i) == Word(frame[14], frame[15]);
      assert r[Sector270] == Distance(Word(frame[14], frame[15]));
    }
    else {
      assert FieldKeys[i] == Sector1 && Field(frame, i) == Word(frame[16], frame[17]);
      assert r[Sector1] == Distance(Word(frame[16], frame[17]));
    }
  }

  /** The field keys are exactly the parsed keys, each once. */
  lemma FieldKeysDistinct()
    ensures forall i, j :: 0 <= i < j < |FieldKeys| ==> FieldKeys[i] != FieldKeys[j]
    ensures forall k :: k in ParsedKeys <==> k in FieldKeys
  {
  }

  /** Two frames that differ at most in the trailing byte decode identically. */
  lemma TrailingByteIgnored(f: seq<Byte>, g: seq<Byte>)
    requires |f| == |g| == FrameLen
    requires f[..18] == g[..18]
    ensures ParseFrame(f) == ParseFrame(g)
  {
    assert forall i :: 0 <= i < 18 ==> f[i] == f[..18][i] && g[i] == g[..18][i];
    assert f[..2] == g[..2];
  }

  /** A wrong header alone decides the result: the payload is never consulted. */
  lemma BadHeaderRejected(frame: seq<Byte>)
    requires |frame| >= 2 && (frame[0] != 0x54 || frame[1] != 0x48)
    ensures ParseFrame(frame) == None
  {
    assert frame[..2][0] == frame[0] && frame[..2][1] == frame[1];
  }
}

=== FILE: raw.dfy ===
/**
 The raw dump script: the same resynchronisation loop as the bridge, but a
 header-aligned window is printed only when `crc8_mr72` of its first 17
 bytes equals its byte 17. Byte 17 is the low byte of the last distance
 field, not the trailing byte; the model keeps the index as written.
 */
module RawDump {
  import opened Frame
  import opened Checksum
  import Resync

  /** One iteration: a header-aligned window whose checksum matched (printed),
      one whose checksum did not (silently discarded), or a dropped byte. */
  datatype RawStep = Accept(frame: seq<Byte>) | Reject(frame: seq<Byte>) | Skip(b: Byte)

  datatype RawResult = RawResult(steps: seq<RawStep>, rest: seq<Byte>)

  /** `crc8_mr72(frame[:17]) == frame[17]`. */
  predicate CrcMatches(frame: seq<Byte>)
    requires |frame| == FrameLen
  {
    Crc(Mr72Params, frame[..17]) == frame[17]
  }

  /** A step's verdict is the right one: both kinds of window are full and
      well-headed, accepted exactly when the checksum matches. */
  predicate Judged(s: RawStep)
  {
    match s
    case Accept(frame) => |frame| == FrameLen && HasHeader(frame) && CrcMatches(frame)
    case Reject(frame) => |frame| == FrameLen && HasHeader(frame) && !CrcMatches(frame)
    case Skip(_) => true
  }

  /** The script's `while len(buffer) >= FRAME_LEN` loop. */
  function RawSync(buf: seq<Byte>): (r: RawResult)
    ensures |r.rest| < FrameLen
    ensures forall i :: 0 <= i < |r.steps| ==> Judged(r.steps[i])
    decreases |buf|
  {
    if |buf| < FrameLen then RawResult([], buf)
    else if HasHeader(buf) then
      var frame := buf[..FrameLen];
      var tail := RawSync(buf[FrameLen..]);
      var step := if CrcMatches(frame) then Accept(frame) else Reject(frame);
      RawResult([step] + tail.steps, tail.rest)
    else
      var tail := RawSync(buf[1..]);
      RawResult([Skip(buf[0])] + tail.steps, tail.rest)
  }

  /** Forget the checksum verdict. */
  function Erase(s: RawStep): Resync.Step
  {
    match s
    case Accept(frame) => Resync.Emit(frame)
    case Reject(frame) => Resync.Emit(frame)
    case Skip(b) => Resync.Drop(b)
  }

  function EraseAll(steps: seq<RawStep>): (r: seq<Resync.Step>)
    ensures |r| == |steps|
    ensures forall i :: 0 <= i < |steps| ==> r[i] == Erase(steps[i])
  {
    if |steps| == 0 then [] else [Erase(steps[0])] + EraseAll(steps[1..])
  }

  /** The checksum gate never changes alignment: a header-aligned window is
      consumed whole whether or not its checksum matches, so the loop cuts
      the buffer exactly as the bridge's loop does. */
  lemma {:induction false} RawSyncAlignsLikeBridge(buf: seq<Byte>)
    ensures EraseAll(RawSync(buf).steps) == Resync.Sync(buf).steps
    ensures RawSync(buf).rest == Resync.Sync(buf).rest
    decreases |buf|
  {
    if |buf| < FrameLen {
    } else if HasHeader(buf) {
      RawSyncAlignsLikeBridge(buf[FrameLen..]);
    } else {
      RawSyncAlignsLikeBridge(buf[1..]);
    }
  }

  /** Hence no byte is lost or duplicated here either. */
  lemma RawSyncConserves(buf: seq<Byte>)
    ensures Resync.Flatten(EraseAll(RawSync(buf).steps)) + RawSync(buf).rest == buf
  {
    RawSyncAlignsLikeBridge(buf);
    Resync.SyncConserves(buf);
  }
}

=== FILE: resync.dfy ===
/**
 The frame resynchronisation loop of the bridge's UART reader thread, and the
 way each emitted frame is folded into the shared `latest_data` dictionary.

 While at least 19 bytes are buffered: if the buffer starts with "TH" the
 first 19 bytes are cut off as a frame, otherwise the first byte is dropped.
 */
module Resync {
  import opened Frame
  import opened Parser

  /** One iteration of the inner loop. */
  datatype Step = Emit(frame: seq<Byte>) | Drop(b: Byte)

  /** The iterations the loop performs on a buffer, and what it leaves behind. */
  datatype SyncResult = SyncResult(steps: seq<Step>, rest: seq<Byte>)

  /** The bytes one iteration removes from the front of the buffer. */
  function Consumed(s: Step): seq<Byte>
  {
    match s
    case Emit(frame) => frame
    case Drop(b) => [b]
  }

  /** All bytes removed by a run of iterations, in order. */
  function Flatten(steps: seq<Step>): seq<Byte>
  {
    if |steps| == 0 then [] else Consumed(steps[0]) + Flatten(steps[1..])
  }

  /** Every emitted frame is a full, well-headed frame. */
  predicate WellFramed(steps: seq<Step>)
  {
    forall i :: 0 <= i < |steps| && steps[i].Emit? ==>
      |steps[i].frame| == FrameLen && HasHeader(steps[i].frame)
  }

  /** The loop `while len(buffer) >= FRAME_LEN` of the reader thread. */
  function Sync(buf: seq<Byte>): (r: SyncResult)
    ensures |r.rest| < FrameLen
    ensures WellFramed(r.steps)
    ensures |buf| < FrameLen ==> r.steps == [] && r.rest == buf
    decreases |buf|
  {
    if |buf| < FrameLen then SyncResult([], buf)
    else if HasHeader(buf) then
      var tail := Sync(buf[FrameLen..]);
      SyncResult([Emit(buf[..FrameLen])] + tail.steps, tail.rest)
    else
      var tail := Sync(buf[1..]);
      SyncResult([Drop(buf[0])] + tail.steps, tail.rest)
  }

  lemma {:induction false} FlattenAppend(a: seq<Step>, b: seq<Step>)
    ensures Flatten(a + b) == Flatten(a) + Flatten(b)
    decreases |a|
  {
    if |a| == 0 {
      assert a + b == b;
    } else {
      assert (a + b)[1..] == a[1..] + b;
      FlattenAppend(a[1..], b);
    }
  }

  /** No byte is lost or duplicated: frames, dropped bytes and the leftover,
      concatenated in the order the loop produced them, are the input. */
  lemma {:induction false} SyncConserves(buf: seq<Byte>)
    ensures Flatten(Sync(buf).steps) + Sync(buf).rest == buf
    decreases |buf|
  {
    if |buf| >= FrameLen {
      var n := if HasHeader(buf) then FrameLen else 1;
      var first := if HasHeader(buf) then Emit(buf[..FrameLen]) else Drop(buf[0]);
      SyncStepFirst(buf, n, first);
      SyncConserves(buf[n..]);
      var steps := [first] + Sync(buf[n..]).steps;
      assert steps[0] == first && steps[1..] == Sync(buf[n..]).steps;
      assert Consumed(first) == buf[..n];
      assert buf == buf[..n] + buf[n..];
    }
  }

  /** A byte is dropped only when the buffer does not start with the header,
      and is always the buffer's first byte. */
  lemma SyncFirstStep(buf: seq<Byte>)
    requires |buf| >= FrameLen
    ensures HasHeader(buf) ==> Sync(buf).steps[0] == Emit(buf[..FrameLen])
    ensures !HasHeader(buf) ==> Sync(buf).steps[0] == Drop(buf[0])
  {
  }

  /** Feeding the bytes in two chunks gives the same iterations and the same
      leftover as feeding them at once: the loop's decisions depend only on
      the buffer's first bytes, and it stops only when fewer than 19 remain. */
  lemma {:induction false} SyncChunked(a: seq<Byte>, b: seq<Byte>)
    ensures Sync(a + b).steps == Sync(a).steps + Sync(Sync(a).rest + b).steps
    ensures Sync(a + b).rest == Sync(Sync(a).rest + b).rest
    decreases |a|
  {
    if |a| < FrameLen {
      assert Sync(a) == SyncResult([], a);
    } else {
      var n := if HasHeader(a) then FrameLen else 1;
      var first := if HasHeader(a) then Emit(a[..FrameLen]) else Drop(a[0]);
      SyncStepFirst(a, n, first);
      SyncStepPrefix(a, b, n, first);
      SyncChunked(a[n..], b);
      PrependSteps(first, Sync(a + b).steps, Sync(a).steps,
        Sync(a[n..]).steps, Sync(Sync(a[n..]).rest + b).steps);
    }
  }

  /** The step taken on a buffer of at least 19 bytes, with `n` the bytes it consumes. */
  lemma SyncStepFirst(a: seq<Byte>, n: nat, first: Step)
    requires |a| >= FrameLen
    requires n == if HasHeader(a) then FrameLen else 1
    requires first == if HasHeader(a) then Emit(a[..FrameLen]) else Drop(a[0])
    ensures n <= |a|
    ensures Sync(a) == SyncResult([first] + Sync(a[n..]).steps, Sync(a[n..]).rest)
  {
  }

  /** Extra bytes at the end do not change the step taken on a buffer that
      already holds 19 bytes. */
  lemma SyncStepPrefix(a: seq<Byte>, b: seq<Byte>, n: nat, first: Step)
    requires |a| >= FrameLen
    requires n == if HasHeader(a) then FrameLen else 1
    requires first == if HasHeader(a) then Emit(a[..FrameLen]) else Drop(a[0])
    ensures Sync(a + b) == SyncResult([first] + Sync(a[n..] + b).steps, Sync(a[n..] + b).rest)
  {
    var ab := a + b;
    assert ab[..2] == a[..2];
    assert ab[..FrameLen] == a[..FrameLen] && ab[0] == a[0];
    assert ab[n..] == a[n..] + b;
    SyncStepFirst(ab, n, first);
  }

  lemma PrependSteps(first: Step, whole: seq<Step>, front: seq<Step>, xs: seq<Step>, ys: seq<Step>)
    requires whole == [first] + (xs + ys)
    requires front == [first] + xs
    ensures whole == front + ys
  {
  }

  /** The garbage bytes `g` contain no header start (including one that
      straddles into the following frame `f`). */
  predicate NoHeaderIn(g: seq<Byte>, f: seq<Byte>)
  {
    forall i :: 0 <= i < |g| ==> !HasHeader((g + f)[i..])
  }

  /** One `Drop` per garbage byte. */
  function Drops(g: seq<Byte>): (r: seq<Step>)
    ensures |r| == |g|
    ensures forall i :: 0 <= i < |g| ==> r[i] == Drop(g[i])
  {
    if |g| == 0 then [] else [Drop(g[0])] + Drops(g[1..])
  }

  /** A valid frame preceded by any run of header-free garbage is recovered
      intact: each garbage byte is dropped singly, then the frame is emitted,
      then the loop carries on with whatever follows. */
  lemma {:induction false} SyncRecoversAfterGarbage(g: seq<Byte>, f: seq<Byte>, t: seq<Byte>)
    requires |f| == FrameLen && HasHeader(f)
    requires NoHeaderIn(g, f)
    ensures Sync(g + f + t).steps == Drops(g) + [Emit(f)] + Sync(t).steps
    ensures Sync(g + f + t).rest == Sync(t).rest
    decreases |g|
  {
    if |g| == 0 {
      assert g + f + t == f + t;
      FrameFirst(f, t);
    } else {
      GarbageFirst(g, f, t);
      SyncRecoversAfterGarbage(g[1..], f, t);
      assert Drops(g) == [Drop(g[0])] + Drops(g[1..]);
    }
  }

  /** A well-headed frame at the front of the buffer is emitted whole. */
  lemma FrameFirst(f: seq<Byte>, t: seq<Byte>)
    requires |f| == FrameLen && HasHeader(f)
    ensures Sync(f + t) == SyncResult([Emit(f)] + Sync(t).steps, Sync(t).rest)
  {
    assert (f + t)[..2] == f[..2];
    assert (f + t)[..FrameLen] == f;
    assert (f + t)[FrameLen..] == t;
    SyncStepFirst(f + t, FrameLen, Emit(f));
  }

  /** A garbage byte at the front of the buffer is dropped alone, and the
      remaining garbage is still header-free. */
  lemma GarbageFirst(g: seq<Byte>, f: seq<Byte>, t: seq<Byte>)
    requires |f| == FrameLen && |g| > 0
    requires NoHeaderIn(g, f)
    ensures NoHeaderIn(g[1..], f)
    ensures Sync(g + f + t)
      == SyncResult([Drop(g[0])] + Sync(g[1..] + f + t).steps, Sync(g[1..] + f + t).rest)
  {
    var buf := g + f + t;
    assert !HasHeader((g + f)[0..]);
    assert (g + f)[0..][..2] == buf[..2];
    assert buf[0] == g[0] && buf[1..] == g[1..] + f + t;
    SyncStepFirst(buf, 1, Drop(g[0]));
    forall i | 0 <= i < |g[1..]|
      ensures !HasHeader((g[1..] + f)[i..])
    {
      assert (g[1..] + f)[i..] == (g + f)[i + 1..];
    }
  }

  /** One iteration's effect on the dictionary: `latest_data.update(parsed_data)`
      when the iteration emitted a frame that parses. */
  function ApplyStep(snapshot: Readings, s: Step): Readings
  {
    match s
    case Emit(frame) =>
      (match ParseFrame(frame)
       case Some(parsed) => snapshot + parsed
       case None => snapshot)
    case Drop(_) => snapshot
  }

  /** `ApplyStep` for every iteration, in order. */
  function ApplyFrames(snapshot: Readings, steps: seq<Step>): Readings
    decreases |steps|
  {
    if |steps| == 0 then snapshot
    else ApplyFrames(ApplyStep(snapshot, steps[0]), steps[1..])
  }

  /** The reader thread's state between reads. */
  datatype Reader = Reader(buffer: seq<Byte>, snapshot: Readings)

  /** One successful `read(64)`: append the data, run the loop, fold the frames. */
  function Feed(reader: Reader, data: seq<Byte>): (r: Reader)
    ensures |r.buffer| < FrameLen
    ensures r.snapshot.Keys == reader.snapshot.Keys + (if Emitted(Sync(reader.buffer + data).steps) then ParsedKeys else {})
  {
    var sync := Sync(reader.buffer + data);
    ApplyKeys(reader.snapshot, sync.steps);
    Reader(sync.rest, ApplyFrames(reader.snapshot, sync.steps))
  }

  /** Some frame was emitted. */
  predicate Emitted(steps: seq<Step>)
  {
    exists i :: 0 <= i < |steps| && steps[i].Emit?
  }

  /** Keys only ever accumulate, and the parsed keys join as soon as one
      well-formed frame goes by. */
  lemma {:induction false} ApplyKeys(snapshot: Readings, steps: seq<Step>)
    requires WellFramed(steps)
    ensures ApplyFrames(snapshot, steps).Keys ==
      snapshot.Keys + (if Emitted(steps) then ParsedKeys else {})
    decreases |steps|
  {
    if |steps| == 0 {
    } else {
      assert WellFramed(steps[1..]) by {
        forall i | 0 <= i < |steps[1..]| && steps[1..][i].Emit?
          ensures |steps[1..][i].frame| == FrameLen && HasHeader(steps[1..][i].frame)
        {
          assert steps[1..][i] == steps[i + 1];
        }
      }
      var next := ApplyStep(snapshot, steps[0]);
      ApplyKeys(next, steps[1..]);
      assert Emitted(steps) <==> steps[0].Emit? || Emitted(steps[1..]) by {
        if Emitted(steps[1..]) {
          var i :| 0 <= i < |steps[1..]| && steps[1..][i].Emit?;
          assert steps[i + 1].Emit?;
        }
        if Emitted(steps) && !steps[0].Emit? {
          var i :| 0 <= i < |steps| && steps[i].Emit?;
          assert steps[1..][i - 1].Emit?;
        }
      }
    }
  }

  /** Keys outside the parsed set (`sector4`..`sector6`) keep their values:
      no frame ever changes them. */
  lemma {:induction false} ApplyKeepsOtherKeys(snapshot: Readings, steps: seq<Step>, k: SectorKey)
    requires k in snapshot && k !in ParsedKeys
    requires WellFramed(steps)
    ensures k in ApplyFrames(snapshot, steps)
    ensures ApplyFrames(snapshot, steps)[k] == snapshot[k]
    decreases |steps|
  {
    if |steps| > 0 {
      assert WellFramed(steps[1..]) by {
        forall i | 0 <= i < |steps[1..]| && steps[1..][i].Emit?
          ensures |steps[1..][i].frame| == FrameLen && HasHeader(steps[1..][i].frame)
        {
          assert steps[1..][i] == steps[i + 1];
        }
      }
      var next := ApplyStep(snapshot, steps[0]);
      assert k in next && next[k] == snapshot[k];
      ApplyKeepsOtherKeys(next, steps[1..], k);
    }
  }

  /** The last emitted frame wins: after a run ending in a frame, every parsed
      key holds that frame's value. */
  lemma LastFrameWins(snapshot: Readings, steps: seq<Step>, f: seq<Byte>)
    requires |f| == FrameLen && HasHeader(f)
    ensures ApplyFrames(snapshot, steps + [Emit(f)]) == ApplyFrames(snapshot, steps) + ParseFrame(f).value
  {
    ApplySplit(snapshot, steps, [Emit(f)]);
  }

  lemma {:induction false} ApplySplit(snapshot: Readings, a: seq<Step>, b: seq<Step>)
    ensures ApplyFrames(snapshot, a + b) == ApplyFrames(ApplyFrames(snapshot, a), b)
    decreases |a|
  {
    if |a| == 0 {
      assert a + b == b;
    } else {
      assert (a + b)[0] == a[0];
      assert (a + b)[1..] == a[1..] + b;
      var next := ApplyStep(snapshot, a[0]);
      ApplySplit(next, a[1..], b);
    }
  }
}

=== FILE: telemetry.dfy ===
/**
 What the bridge's sender thread computes from a copy of `latest_data` each
 tick: one DISTANCE_SENSOR report per present sector among sectors 1..3, and
 the 72-bin OBSTACLE_DISTANCE array. Only the integer arguments of the
 MAVLink calls are modelled.
 */
module Telemetry {
  import opened Frame
  import opened Parser

  /** The arguments of one `distance_sensor_send` call, without the timestamp. */
  datatype DistanceReport = DistanceReport(
    minCm: nat, maxCm: nat, currentCm: nat, sensorType: nat,
    id: nat, orientation: int, covariance: nat)

  /** `int(distance_mm / 10.0)`: millimetres to whole centimetres, truncated. */
  function ToCm(mm: nat): (cm: nat)
    ensures cm * 10 <= mm < cm * 10 + 10
  {
    mm / 10
  }

  /** `send_distance_sensor_mavlink(distance_mm, orientation, sensor_id)`. */
  function SensorReport(mm: nat, orientation: int, id: nat): DistanceReport
  {
    DistanceReport(10, 10000, ToCm(mm), 0, id, orientation, 0)
  }

  /** The sectors the sender reports individually; channel `c` is sent with
      sensor id `c + 1` and MAVLink orientation `c`. */
  const Channels: seq<SectorKey> := [Sector1, Sector2, Sector3]

  /** The snapshot can be read by the sender without a missing key. */
  predicate HasChannels(data: Readings)
  {
    Sector1 in data && Sector2 in data && Sector3 in data
  }

  /** Some report carries sensor id `id`. */
  predicate ReportsId(reports: seq<DistanceReport>, id: nat)
  {
    exists i :: 0 <= i < |reports| && reports[i].id == id
  }

  /** Report `r` is what the sender sends for channel `r.id - 1` of `data`. */
  predicate Describes(data: Readings, r: DistanceReport)
    requires HasChannels(data)
  {
    && 1 <= r.id <= 3
    && r.orientation == r.id - 1
    && data[Channels[r.id - 1]].Some?
    && r.currentCm == ToCm(data[Channels[r.id - 1]].value)
    && r.minCm == 10 && r.maxCm == 10000
    && r.sensorType == 0 && r.covariance == 0
  }

  /** One `if data[...] is not None` block: channel `c`'s report, if any. */
  function ChannelReport(data: Readings, c: nat): (p: seq<DistanceReport>)
    requires HasChannels(data) && c < 3
    ensures |p| <= 1
    ensures |p| == 1 <==> data[Channels[c]].Some?
    ensures |p| == 1 ==> p[0].id == c + 1 && Describes(data, p[0])
  {
    if data[Channels[c]].Some? then [SensorReport(data[Channels[c]].value, c, c + 1)] else []
  }

  /** The three `if data[...] is not None` blocks of the sender thread. */
  function SensorReports(data: Readings): (reports: seq<DistanceReport>)
    requires HasChannels(data)
    ensures |reports| <= 3
    ensures forall i :: 0 <= i < |reports| ==> Describes(data, reports[i])
    ensures forall i, j :: 0 <= i < j < |reports| ==> reports[i].id < reports[j].id
    ensures forall c :: 0 <= c < 3 ==> (data[Channels[c]].Some? <==> ReportsId(reports, c + 1))
  {
    var r1 := ChannelReport(data, 0);
    var r2 := ChannelReport(data, 1);
    var r3 := ChannelReport(data, 2);
    JoinReports(data, r1, r2, r3);
    r1 + r2 + r3
  }

  /** Joining the three blocks' reports keeps them in id order, and id `k`
      is reported exactly when block `k` sent something. */
  lemma JoinReports(data: Readings, r1: seq<DistanceReport>, r2: seq<DistanceReport>, r3: seq<DistanceReport>)
    requires HasChannels(data)
    requires |r1| <= 1 && |r2| <= 1 && |r3| <= 1
    requires |r1| == 1 <==> data[Sector1].Some?
    requires |r2| == 1 <==> data[Sector2].Some?
    requires |r3| == 1 <==> data[Sector3].Some?
    requires |r1| == 1 ==> r1[0].id == 1 && Describes(data, r1[0])
    requires |r2| == 1 ==> r2[0].id == 2 && Describes(data, r2[0])
    requires |r3| == 1 ==> r3[0].id == 3 && Describes(data, r3[0])
    ensures forall i :: 0 <= i < |r1 + r2 + r3| ==> Describes(data, (r1 + r2 + r3)[i])
    ensures forall i, j :: 0 <= i < j < |r1 + r2 + r3| ==> (r1 + r2 + r3)[i].id < (r1 + r2 + r3)[j].id
    ensures forall c :: 0 <= c < 3 ==> (data[Channels[c]].Some? <==> ReportsId(r1 + r2 + r3, c + 1))
  {
    var rs := r1 + r2 + r3;
    assert Channels[0] == Sector1 && Channels[1] == Sector2 && Channels[2] == Sector3;
    assert forall i :: 0 <= i < |rs| ==>
      (i < |r1| && rs[i] == r1[i]) || (|r1| <= i < |r1| + |r2| && rs[i] == r2[i - |r1|])
      || (|r1| + |r2| <= i && rs[i] == r3[i - |r1| - |r2|]);
    if |r1| == 1 { assert rs[0] == r1[0]; }
    if |r2| == 1 { assert rs[|r1|] == r2[0]; }
    if |r3| == 1 { assert rs[|r1| + |r2|] == r3[0]; }
  }

  /** Value of a bin no sector writes: 10000 cm. */
  const FarCm: nat := 10000

  /** `for i in range(6): distance_array[(base + i) % 72] = cm`, from
      iteration `i` onwards. */
  function FillAround(arr: seq<nat>, base: nat, i: nat, cm: nat): (r: seq<nat>)
    requires |arr| == Bins && base + 6 <= Bins && i <= 6
    ensures |r| == Bins
    ensures forall j :: 0 <= j < Bins ==> r[j] == if base + i <= j < base + 6 then cm else arr[j]
    decreases 6 - i
  {
    if i == 6 then arr
    else FillAround(arr[(base + i) % Bins := cm], base, i + 1, cm)
  }

  /** Reference meaning of bin `j` of the obstacle array: sectors 1, 2 and 3
      cover bins 0..5, 18..23 and 36..41 when present; everything else is far. */
  function ExpectedBin(data: Readings, j: nat): nat
    requires HasChannels(data)
  {
    if j < 6 && data[Sector1].Some? then data[Sector1].value / 10
    else if 18 <= j < 24 && data[Sector2].Some? then data[Sector2].value / 10
    else if 36 <= j < 42 && data[Sector3].Some? then data[Sector3].value / 10
    else FarCm
  }

  /** `send_obstacle_distance_mavlink`: the `distances` argument. */
  function ObstacleArray(data: Readings): (arr: seq<nat>)
    requires HasChannels(data)
    ensures |arr| == Bins
    ensures forall j :: 0 <= j < Bins ==> arr[j] == ExpectedBin(data, j)
  {
    var far := seq(Bins, _ => FarCm);
    var a1 := if data[Sector1].Some? then FillAround(far, 0, 0, data[Sector1].value / 10) else far;
    var a2 := if data[Sector2].Some? then FillAround(a1, 18, 0, data[Sector2].value / 10) else a1;
    var a3 := if data[Sector3].Some? then FillAround(a2, 36, 0, data[Sector3].value / 10) else a2;
    a3
  }

  /** The integer arguments of one `obstacle_distance_send` call. */
  datatype ObstacleMessage = ObstacleMessage(
    sensorType: nat, distances: seq<nat>, increment: nat, minCm: nat, maxCm: nat, frame: nat)

  /** `send_obstacle_distance_mavlink`: the whole message, with sensor type 0,
      5-degree bins, a 10..10000 cm range and frame 12. */
  function ObstacleMessageOf(data: Readings): (m: ObstacleMessage)
    requires HasChannels(data)
    ensures m.sensorType == 0 && m.increment == 5 && m.frame == 12
    ensures m.minCm == 10 && m.maxCm == FarCm
    ensures |m.distances| * m.increment == 360
    ensures forall j :: 0 <= j < Bins ==> m.distances[j] == ExpectedBin(data, j)
  {
    ObstacleMessage(0, ObstacleArray(data), 5, 10, 10000, 12)
  }

  /** Bins outside the three sector windows are never written. */
  lemma UncoveredBinsStayFar(data: Readings, j: nat)
    requires HasChannels(data) && j < Bins
    requires !(j < 6 || 18 <= j < 24 || 36 <= j < 42)
    ensures ObstacleArray(data)[j] == FarCm
  {
  }
}

=== FILE: testframe.dfy ===
/**
 The parser test script's frame builder and the frames its invalid-frame
 test feeds to the parser. The test calls the parser under a name the
 bridge class does not define; here the bridge's `parse_mr72_frame` stands
 in for it.
 */
module TestFrames {
  import opened Frame
  import opened Parser
  import opened Checksum

  /** Eight distances that `struct.pack('>H', ...)` accepts. */
  predicate PackableValues(values: seq<nat>)
  {
    |values| == 8 && forall i :: 0 <= i < 8 ==> values[i] < 0x1_0000
  }

  /** `d1 + d2 + ...`: the values packed big-endian and concatenated. */
  function PackAll(values: seq<nat>): (bs: seq<Byte>)
    requires forall i :: 0 <= i < |values| ==> values[i] < 0x1_0000
    ensures |bs| == 2 * |values|
    ensures forall i :: 0 <= i < |values| ==> Word(bs[2 * i], bs[2 * i + 1]) == values[i]
  {
    if |values| == 0 then []
    else
      var head := PackU16(values[0]);
      var tail := PackAll(values[1..]);
      assert forall i :: 1 <= i < |values| ==>
        (head + tail)[2 * i] == tail[2 * (i - 1)] && (head + tail)[2 * i + 1] == tail[2 * (i - 1) + 1];
      head + tail
  }

  /** `create_test_frame` with the eight distances as parameters: header,
      packed distances, then the test's CRC-8 (init 0x00, poly 0x31) of
      those 18 bytes. */
  function BuildFrame(values: seq<nat>): (frame: seq<Byte>)
    requires PackableValues(values)
    ensures |frame| == FrameLen && HasHeader(frame)
    ensures frame[2..18] == PackAll(values)
    ensures frame[18] == Crc(TestParams, frame[..18])
  {
    var data := Header + PackAll(values);
    assert (data + [Crc(TestParams, data)])[..18] == data;
    assert (data + [Crc(TestParams, data)])[2..18] == PackAll(values);
    data + [Crc(TestParams, data)]
  }

  /** Packing then parsing gives back every value, with `0xFFFF` read as
      "no reading": field `i` under its key holds `values[i]`. */
  lemma BuildParseRoundTrip(values: seq<nat>, i: nat)
    requires PackableValues(values) && i < 8
    ensures ParseFrame(BuildFrame(values)).Some?
    ensures ParseFrame(BuildFrame(values)).value[FieldKeys[i]] == Distance(values[i])
  {
    var frame := BuildFrame(values);
    var packed := frame[2..18];
    assert frame[2 + 2 * i] == packed[2 * i] && frame[3 + 2 * i] == packed[2 * i + 1];
    ParseFields(frame, i);
  }

  /** For any value the radar can report (below `0xFFFF`) the round trip
      returns it unchanged. */
  lemma PresentValuesRoundTrip(values: seq<nat>, i: nat)
    requires PackableValues(values) && i < 8 && values[i] < InvalidDistance
    ensures ParseFrame(BuildFrame(values)).value[FieldKeys[i]] == Some(values[i])
  {
    BuildParseRoundTrip(values, i);
  }

  /** Every key of a built frame holds its value, read back as `Distance`. */
  lemma BuildParseAll(values: seq<nat>)
    requires PackableValues(values)
    ensures ParseFrame(BuildFrame(values)).Some?
    ensures var r := ParseFrame(BuildFrame(values)).value;
      && r[Sector2] == Distance(values[0]) && r[Sector3] == Distance(values[1])
      && r[Sector90] == Distance(values[2]) && r[Sector135] == Distance(values[3])
      && r[Sector180] == Distance(values[4]) && r[Sector225] == Distance(values[5])
      && r[Sector270] == Distance(values[6]) && r[Sector1] == Distance(values[7])
  {
    BuildParseRoundTrip(values, 0);
    BuildParseRoundTrip(values, 1);
    BuildParseRoundTrip(values, 2);
    BuildParseRoundTrip(values, 3);
    BuildParseRoundTrip(values, 4);
    BuildParseRoundTrip(values, 5);
    BuildParseRoundTrip(values, 6);
    BuildParseRoundTrip(values, 7);
  }

  /** The distances `create_test_frame` packs, in wire order. */
  const TestValues: seq<nat> := [1500, 2000, 1200, 1800, 2500, 3000, 2200, 1000]

  /** The test frame decodes to the values the test expects: sector 1
      1000 mm, sector 2 1500 mm, sector 3 2000 mm, and 1200, 1800, 2500,
      3000, 2200 mm at 90, 135, 180, 225 and 270 degrees. */
  lemma TestFrameParses()
    ensures ParseFrame(BuildFrame(TestValues)).Some?
    ensures var r := ParseFrame(BuildFrame(TestValues)).value;
      && r[Sector1] == Some(1000) && r[Sector2] == Some(1500) && r[Sector3] == Some(2000)
      && r[Sector90] == Some(1200) && r[Sector135] == Some(1800) && r[Sector180] == Some(2500)
      && r[Sector225] == Some(3000) && r[Sector270] == Some(2200)
  {
    assert PackableValues(TestValues);
    BuildParseAll(TestValues);
  }

  /** `bytes([0x41, 0x42]) + b'\x00' * 17` */
  const WrongHeaderFrame: seq<Byte> := [0x41, 0x42] + seq(17, _ => 0)
  /** `bytes([0x54, 0x48]) + b'\x00' * 10` */
  const ShortFrame: seq<Byte> := [0x54, 0x48] + seq(10, _ => 0)
  /** `bytes([0x54, 0x48]) + b'\xFF\xFF' * 8 + bytes([0x00])` */
  const AllInvalidFrame: seq<Byte> := [0x54, 0x48] + seq(16, _ => 0xFF) + [0x00]

  /** The invalid-frame test's three expectations: a wrong header and a
      12-byte frame are rejected, and an all-`0xFFFF` payload parses with
      (in fact every) field missing. */
  lemma InvalidFramesBehave()
    ensures ParseFrame(WrongHeaderFrame) == None
    ensures ParseFrame(ShortFrame) == None
    ensures ParseFrame(AllInvalidFrame).Some?
    ensures forall k :: k in ParseFrame(AllInvalidFrame).value ==> ParseFrame(AllInvalidFrame).value[k] == None
  {
    BadHeaderRejected(WrongHeaderFrame);
    var f := AllInvalidFrame;
    assert |f| == FrameLen && f[..2] == Header;
    forall i | 0 <= i < 8
      ensures ParseFrame(f).value[FieldKeys[i]] == None
    {
      ParseFields(f, i);
      assert f[2 + 2 * i] == 0xFF && f[3 + 2 * i] == 0xFF;
    }
    FieldKeysDistinct();
  }
}
